=== FILE: README.md ===
# Synesthetic keyboard: text buffer, paper renderer and mode controller

This Dafny project models the core of the synesthetic keyboard, a children's
typing application that gives every character a colour of its own. The model
covers:

- **the document buffer**: a sequence of `{char, color}` entries and a cursor
  index, changed by typing, backspace and cursor movement;
- **the paper renderer**: a deterministic projection of the buffer, cursor and
  mode onto draw items. Each visible character gets a grey shadow at z = 1 and
  a coloured glyph at z = 2. There is no word wrap: the glyph that carries the
  pen past `PAPER_W - 40` is drawn where it stands, and only then does the pen
  move to the next line. In writing mode one red cursor line is drawn at
  z = 3;
- **the scene refresh**: it removes the previous text and line items but keeps
  placed stickers, which are text items too;
- **the two-state mode controller**: "setting" opens the crayon colour dialog
  on a key click, "writing" types it. It also covers the physical keys, the
  special-key buttons, themes and sticker drops;
- **the grid placement arithmetic** of the keyboard, the sticker dock and the
  crayon palette.

The application comes as three near-identical main windows: `main.py` (the
live entry point), `main_v1.3.py` and `main_all_in_one.py`. The model has one
`Version` value per window. Where the windows differ, the model follows each
one's code:

- the fallback colour for an unassigned character: `"#000"` in main.py,
  `"#000000"` in the others;
- the physical-key table: main.py also has Up/Down with a fixed stride of 15,
  Space and Return/Enter;
- which special-key buttons exist;
- the refresh: main_all_in_one.py starts with `scene.clear()` and so loses
  every placed sticker on each render, while the other two filter the scene
  and keep them;
- the z of a dropped sticker: 4 in main.py and main_v1.3.py, Qt's default 0
  in main_all_in_one.py;
- whether `change_theme` records the theme name.

Modules, one per component:

| file | module | models |
|---|---|---|
| common.dfy | `Common` | versions, modes, colours, points, `PAPER_W` |
| document.dfy | `Document` | the buffer and its three edit operations |
| scene.dfy | `Scene` | tagged scene items, the refresh filter, sticker drop and removal |
| layout.dfy | `Layout` | pen movement and both render loops |
| paper.dfy | `Paper` | the canvas, the themes and each window's render pass |
| grid.dfy | `Grid` | the row/column counter arithmetic |
| widgets.dfy | `Widgets` | `ColorKey`, `CrayonPalette`, the sticker dock |
| keyboard.dfy | `Keyboard` | Latin and Japanese key placement, key repaint after the dialog |
| session.dfy | `Session` | the main window as a state machine |

Some things are parameters of the model rather than modelled:

- glyph width from font metrics is an uninterpreted `string -> real`;
- whether a theme image file exists is a `string -> bool`;
- the crayons clicked while the colour dialog is open are a `seq<Color>`;
- the drop position of a sticker is a `Point`.

Scene items are kept in emission order. A placed sticker is modelled like
`PlacedStickerItem`: a text item with the role `Sticker`. That is why the
refresh test as main.py and main_v1.3.py write it needs its explicit sticker
exclusion. `Scene.TypeTestAloneLosesStickers` proves that a type test alone
would keep no sticker. `Scene.SurvivorsAreStickers` proves that with the
exclusion, the refresh keeps exactly the stickers.

The colour dialog's repaint of keys is modelled twice (see Findings). The
window model uses the version that does not crash.

## Model

| member | source | states |
|---|---|---|
| `Document.TypeChar` | main.py:328-331 | The new entry has the typed character. Its colour is the assigned colour, or the fallback when none is assigned. It sits at the old cursor, the cursor moves past it, and every other entry keeps its relative order. |
| `Document.Backspace` | main.py:333-334 | At cursor 0 nothing changes. Otherwise the entry before the cursor is removed, the cursor steps back, and the other entries keep their order. |
| `Document.MoveCursor` | main.py:336-339 | The cursor becomes the sum clamped to `[0, len]`, exactly at either bound when the sum overshoots. The entries are unchanged. |
| `Document.TypeThenBackspace` | main_v1.3.py:345-354 | Typing any character and then pressing backspace restores the buffer and the cursor. |
| `Document.BackspaceThenRetype` | main_all_in_one.py:375-385 | Erasing an entry and retyping it in the same colour restores the buffer: the other half of the inverse pair. |
| `Document.EditsKeepCursorInBounds` | main.py:328-339 | Every sequence of inserts, backspaces and moves keeps `0 <= cursor <= len`. |
| `Scene.SurvivorsAreStickers` | main_v1.3.py:365-374 | The refresh keeps a scene item iff it is a placed sticker, even though a sticker is itself a text item, and stickers stay in scene order. |
| `Scene.TypeTestAloneLosesStickers` | main_v1.3.py:366-370 | Testing only "text item or line item" would remove every item, placed stickers included. So whenever the scene holds a sticker, the explicit sticker exclusion changes what the refresh keeps. |
| `Scene.DropSticker` | main_v1.3.py:57-66 | A drop appends one sticker showing the dropped text at the drop point. Its z is 4 in main.py/main_v1.3.py and 0 in main_all_in_one.py. The sticker list grows by exactly that item. |
| `Scene.RemoveSticker` | src/.ipynb_checkpoints/widgets-checkpoint.py:40-48 | Double-clicking a placed sticker removes that one item and no other, so there is one sticker fewer. |
| `Layout.RenderTexts` | main.py:346-356 | The pen starts at (20, 20). A newline moves it to x = 20, y + 40 and emits nothing. Every other entry emits a grey shadow at pen + (2, 2) with z = 1 and a glyph in its own colour at the pen with z = 2, in buffer order. The pen wraps only when x passes PAPER_W - 40. |
| `Layout.RenderCursor` | main.py:347-360 | In writing mode, with the cursor in bounds, exactly one red line is drawn at z = 3. It runs from the pen position before entry `cursor` (the final pen position when the cursor is at the end) 30 units down. In setting mode no line is drawn. |
| `Layout.RenderVersionsAgree` | main_v1.3.py:379-421 | The `cursor_drawn` flag of main_v1.3.py/main_all_in_one.py changes nothing. The two render loops emit the same items for every buffer, cursor and mode, up to the cursor's pen width and the font's style hint, which are not modelled (see Left out). So at most one cursor is ever drawn. |
| `Layout.RenderIsRemovable` | main.py:341-360 | A render emits no sticker. Everything it emits is removed by the next refresh, and its z lies strictly between 0 and 4. |
| `Layout.PenInBounds` | main.py:352-356 | With non-negative glyph widths, the pen's x stays within [20, PAPER_W - 40] and y never goes above 20. |
| `Layout.TwoLineExample` | main.py:346-356 | For "AB", newline, "C" with no mid-line wrap: A is drawn at (20, 20), B at (20 + width(A), 20) and C at (20, 60), each with its shadow 2 units right and down. |
| `Paper.ChangeTheme` | main_all_in_one.py:463-472 | main_v1.3.py and main_all_in_one.py record the theme name even when its image file is missing; main.py does not record it. The background changes only when the file exists. Scene items are untouched. |
| `Paper.Refresh` | main.py:341-343 | After the refresh and layout, the stickers are exactly the stickers before, and the non-sticker items are exactly the fresh layout. |
| `Paper.RenderPaper` | main_all_in_one.py:392-452 | main.py lays out with its own loop and the other windows with the `cursor_drawn` loop. In every window the non-sticker items after a render are the fresh layout, and the recorded theme is unchanged. In main.py and main_v1.3.py the stickers and the background are unchanged. In main_all_in_one.py no sticker is left. A non-empty theme is re-applied when its file exists; otherwise the background is kept. |
| `Paper.RenderTwiceIsRenderOnce` | main_v1.3.py:360-412 | Rendering again with no edit in between leaves the whole canvas unchanged, in every window. |
| `Paper.ClearLosesSticker` | main_all_in_one.py:393-413 | A canvas holding one sticker has none after a render in main_all_in_one.py, and still one after a render in main_v1.3.py. |
| `Widgets.NewColorKey` | src/.ipynb_checkpoints/widgets-checkpoint.py:67-72 | A new key stores its character and starts in "#000000". |
| `Widgets.SetSynesthesiaColor` | src/.ipynb_checkpoints/widgets-checkpoint.py:73-75 | Repainting sets the key's colour to the given hex and keeps its character. |
| `Widgets.BuildPalette` | src/.ipynb_checkpoints/widgets-checkpoint.py:16-38 | Crayon `i` carries colour `i`, so a click hands exactly that hex to the callback. It sits at (i / 6, i % 6). Its tooltip is the colour's name, or "Unknown" when the colour has none. |
| `Widgets.BuildDock` | main_v1.3.py:179-184 | Dock sticker `i` shows label `i` at (i / 2, i % 2). |
| `Keyboard.KeyFor` | main.py:311-312 | A loaded key shows its character in the assigned colour, or in "#000000" when it has none. |
| `Keyboard.LoadLatin` | main_v1.3.py:280-291 | Latin/number key `i` is placed at (i / 10, i % 10) with its character and colour. |
| `Keyboard.JapanesePlacement` | main_v1.3.py:292-303 | Every placed kana key sits at (row, columns - 1 - column) of a non-empty slot and shows that kana. Every non-empty slot gets its key there, and empty strings get none. There are exactly as many keys as non-empty slots, so each slot gets exactly one key. |
| `Keyboard.RepaintAsWritten` | main_v1.3.py:339-342 | The written repaint fails with KeyError iff some key shows the character and the character has no colour. Otherwise keys showing the character take its colour and the rest are unchanged. |
| `Keyboard.Repaint` | main.py:368-370 | The repaint never fails. Keys showing the character take its colour when it has one; every other key, and every key of an uncoloured character, keeps its colour and cell. |
| `Keyboard.RepaintAgreesWhenDefined` | main_all_in_one.py:369-372 | Wherever the written repaint succeeds, it gives the same keys as the non-crashing one. |
| `Keyboard.RepaintCrashesOnUnassigned` | main_v1.3.py:322-342 | Closing the dialog for a key "A" that never got a colour raises KeyError("A"). |
| `Session.Open` | main_v1.3.py:76-84 | A new window has the given version, colour map and keys. It starts in setting mode with an empty buffer, cursor 0, blank paper (no items, no background, no recorded theme), the workspace hidden and the first stylesheet theme. |
| `Session.KeyAction` | main.py:293-301 | Physical keys do nothing in setting mode. In writing mode, Left/Right are -1/+1 and Backspace erases. main.py adds Up/Down = -15/+15, Space = " " and Return/Enter = newline; the other windows ignore every key but Left, Right and Backspace. |
| `Session.Perform` | main.py:328-339 | Typing, erasing and moving change the buffer as the edit operations do. The fallback colour is "#000" in main.py and "#000000" otherwise. A backspace at 0 changes nothing; every other action re-renders the paper. Mode, colours, keys, theme index and the recorded theme are untouched. A re-render leaves the fresh layout as the only non-sticker items. In main.py and main_v1.3.py the stickers and background survive. In main_all_in_one.py no sticker is left, a non-empty recorded theme whose file exists is re-applied, and otherwise the background is kept. |
| `Session.KeyPress` | main.py:293-339 | A key press changes at most the buffer and the paper. In setting mode it changes nothing. In writing mode Left and Right move the cursor by one and Backspace erases. In main.py Up and Down also move it by 15, Space types a blank and Return/Enter a newline. In the other windows every other key does nothing. Whenever the buffer action runs, the paper is re-rendered as `Perform` states. The recorded theme is kept, and in main.py and main_v1.3.py so are the stickers and the background. |
| `Session.SpecialAction` | main_v1.3.py:229-234 | Space types " ", Back erases, Enter types a newline, and any other button types its own caption. |
| `Session.PressSpecial` | main_all_in_one.py:263-267 | A special-key button changes the buffer the same way whatever the mode. It changes at most the buffer and the paper, so a press in setting mode stays in setting mode. Unless it is Back at the start of the buffer, which changes nothing, the paper is re-rendered as `Perform` states. The recorded theme is kept, and in main.py and main_v1.3.py so are the stickers and the background. |
| `Session.ApplyPicks` | main_v1.3.py:326-329 | Each crayon click stores its hex for the character. With no click the map is unchanged; otherwise the last click's hex is stored. |
| `Session.ColorDialog` | main.py:362-370 | After the dialog the character maps to the last clicked hex (unchanged with no click). Every key keeps its character and cell. Keys showing the character take its colour when it has one. When it still has none, no key changes. Other keys are unchanged, and nothing outside the colour map and the keys changes. |
| `Session.HandleKey` | main.py:324-334 | In setting mode a key click changes only colours and keys: mode, workspace, buffer and paper stay as they are. With no crayon click the colour map is unchanged; otherwise the character gets the last clicked hex. The keys are then repainted from the resulting map. In writing mode it types the character with the current colour map and changes nothing but the buffer and the paper. The paper is re-rendered as `Perform` states. |
| `Session.SetMode` | main_all_in_one.py:276-288 | The workspace is shown iff the mode is writing. Setting leaves the paper as it is. Writing re-renders it: the non-sticker items are the fresh layout. In main.py and main_v1.3.py the stickers and the background are kept. In main_all_in_one.py no sticker is left, a non-empty recorded theme whose file exists is re-applied, and otherwise the background is kept. Buffer, colours, keys, theme index and recorded theme are kept in every window. |
| `Session.CycleTheme` | main.py:266-289 | The theme index steps to the next of the five themes and wraps to 0 after the last. The mode is then re-applied: the workspace is shown iff the mode is writing. In writing mode the paper is re-rendered; in setting mode it stays as it is. The stickers, the background and the recorded theme are kept, and nothing else in the window changes. |
| `Session.PickTheme` | main_v1.3.py:423-430 | Choosing a theme changes only the canvas's background and recorded name, never its items. The background becomes the chosen theme when its image file exists and is kept otherwise. main.py does not record the name; the other windows do. |
| `Session.DropFromDock` | src/.ipynb_checkpoints/widgets-checkpoint.py:58-64 | Dropping a dock sticker appends one placed sticker showing that sticker's text at the drop point. Every earlier item, the background, the theme and the rest of the window are kept. The sticker is stacked above the cursor in main.py/main_v1.3.py and below the shadows in main_all_in_one.py. |
| `Session.EventLoop` | main_v1.3.py:345-374 | Handling any sequence of key presses, clicks, special keys, mode switches and theme changes one after another gives the run of those inputs. Afterwards the cursor is within the buffer and the window's version is kept. In main.py and main_v1.3.py the placed stickers survive, in number and content. |
| `Session.RunKeepsValid` | main_v1.3.py:345-358 | After any sequence of key presses, clicks, special keys, mode switches and theme changes, the cursor is within the buffer. |
| `Session.RunKeepsStickers` | main_v1.3.py:360-374 | In main.py and main_v1.3.py the placed stickers, in number and content, survive any sequence of those inputs. |
| `Session.AssignThenType` | main_v1.3.py:305-349 | Assigning a colour to a character in setting mode, switching to writing and clicking that key types the character in the assigned colour. |
| `Session.SpecialKeysIgnoreMode` | main_v1.3.py:224-234 | Special-key buttons type or erase identically in setting and in writing mode. |

## Left out

- Audio: `SoundManager`, the background-music dialogs and the sound cue played by `type`. They are foreign calls with no effect on the buffer.
- Profile persistence: loading and saving the JSON colour profile, the profile chooser and profile creation. This is file I/O. The colour map is a plain value of the window, and every save after a crayon click is omitted.
- Theme images and stylesheets: loading, scaling and applying PNG/QSS files. A theme is reduced to its name, and file existence is a parameter.
- Preview and export: rasterising the scene, 2x scaling, clipboard and download path. These are graphics and I/O.
- Font metrics: glyph width is an uninterpreted function, with no floating-point text measurement.
- Qt widget construction, layouts, styling, polish/unpolish, focus handling and modal event loops. Only the state changes they trigger are modelled.
- Dragging a placed sticker to a new position: Qt moves the item directly and no code of the application runs.
- Tab selection (`load_kb` / `load_keyboard`): the choice between the Latin and the Japanese placement by tab name is not modelled. The two placements themselves are (`Keyboard.LoadLatin`, `Keyboard.JapanesePlacement`).
- The `setattr` expressions on the sticker-dock and keyboard loops of main.py: they write unused module globals, and placement follows the local counters.
- Cursor pen width and font style hint: main.py draws the cursor with a 1-unit pen and the other windows with a 2-unit one, and the other windows' glyph font also sets a SansSerif style hint. Line items carry no pen width and text items no font, so `Layout.RenderVersionsAgree` equates the two loops only up to these.
- Session.ColorDialog: models the dialog with the non-crashing repaint (`Keyboard.Repaint`), not the KeyError of the written code. Keys of a character that is still uncoloured keep their colour instead of raising; see Findings.

## Findings

| source | as written | input that shows it | evidently intended | confidence | as-written member | corrected member |
|---|---|---|---|---|---|---|
| main_v1.3.py:339-342 | After the colour dialog closes, every key showing the character is repainted with `color_map[char]`, a lookup that raises KeyError when the character was never given a colour. The same code is at main.py:368-370 and main_all_in_one.py:369-372. | In setting mode, click the key "A" of a fresh profile and press OK without clicking a crayon. | Keys of a character with no colour keep the colour they show. | high that KeyError is raised; not executed | `Keyboard.RepaintAsWritten` | `Keyboard.Repaint` |

=== FILE: common.dfy ===
/** Shared vocabulary of the synesthetic keyboard model: the three window
    versions, the two interaction modes, paper geometry constants, colour
    lookup with a fallback, and small failure-carrying wrappers. */
module Common {

  /** The three near-identical main windows of the application.  They agree
      on most behaviour and differ in a handful of places (default colour,
      key table, special keys, refresh strategy, sticker z-value). */
  datatype Version = Main | V13 | AllInOne

  /** The two interaction modes; the source keeps these as the strings
      "setting" and "writing". */
  datatype Mode = Setting | Writing

  datatype Option<+T> = None | Some(value: T)

  datatype Error = KeyError(key: string)

  datatype Result<+T> = Ok(value: T) | Err(error: Error)

  /** A colour as the source writes it: a CSS/hex string such as "#ff0000". */
  type Color = string

  /** Paper width in scene units (config PAPER_W). */
  const PAPER_W: int := 500

  /** Fallback colour for characters with no assigned colour.  main.py uses
      the short form "#000"; the other two windows use "#000000". */
  function DefaultColor(v: Version): Color
  {
    if v == Main then "#000" else "#000000"
  }

  /** `color_map.get(ch, fallback)`: the assigned colour, or the fallback. */
  function ColorFor(colors: map<string, Color>, ch: string, fallback: Color): Color
  {
    if ch in colors then colors[ch] else fallback
  }

  /** A position on the paper.  Glyph widths are fractional, so pen
      coordinates are reals. */
  datatype Point = Point(x: real, y: real)

  function Offset(p: Point, dx: real, dy: real): Point
  {
    Point(p.x + dx, p.y + dy)
  }
}

=== FILE: document.dfy ===
/** The document buffer: an ordered sequence of typed character entries,
    each carrying the colour it was typed in, plus a cursor index. */
module Document {
  import opened Common

  /** One typed character and the colour baked in when it was typed. */
  datatype Entry = Entry(ch: string, color: Color)

  datatype Doc = Doc(entries: seq<Entry>, cursor: int) {
    /** The cursor always lies between two entries or at either end. */
    predicate Valid() {
      0 <= cursor <= |entries|
    }
  }

  /** The empty buffer every window starts with. */
  const Empty: Doc := Doc([], 0)

  /** `max(lo, min(v, hi))`, the clamp used by `move_cursor`. */
  function Clamp(v: int, lo: int, hi: int): (r: int)
    requires lo <= hi
    ensures lo <= r <= hi
    ensures lo <= v <= hi ==> r == v
    ensures v < lo ==> r == lo
    ensures hi < v ==> r == hi
  {
    if v < lo then lo else if v > hi then hi else v
  }

  /** Insert an entry at the cursor and step the cursor past it. */
  function Insert(d: Doc, e: Entry): (r: Doc)
    requires d.Valid()
    ensures r.Valid()
    ensures |r.entries| == |d.entries| + 1
    ensures r.cursor == d.cursor + 1
    ensures r.entries[d.cursor] == e
    ensures r.entries[..d.cursor] == d.entries[..d.cursor]
    ensures r.entries[d.cursor + 1..] == d.entries[d.cursor..]
  {
    Doc(d.entries[..d.cursor] + [e] + d.entries[d.cursor..], d.cursor + 1)
  }

  /** `type` / `type_char`: the new entry takes the character's assigned
      colour, or the version's fallback colour when none is assigned. */
  function TypeChar(d: Doc, colors: map<string, Color>, fallback: Color, c: string): (r: Doc)
    requires d.Valid()
    ensures r.Valid() && r.cursor == d.cursor + 1
    ensures |r.entries| == |d.entries| + 1
    ensures r.entries[d.cursor].ch == c
    ensures c in colors ==> r.entries[d.cursor].color == colors[c]
    ensures c !in colors ==> r.entries[d.cursor].color == fallback
    ensures forall k :: 0 <= k < d.cursor ==> r.entries[k] == d.entries[k]
    ensures forall k :: d.cursor <= k < |d.entries| ==> r.entries[k + 1] == d.entries[k]
  {
    Insert(d, Entry(c, ColorFor(colors, c, fallback)))
  }

  /** `backspace`: a no-op at the start of the buffer; otherwise the entry
      before the cursor is dropped and the cursor steps back. */
  function Backspace(d: Doc): (r: Doc)
    requires d.Valid()
    ensures r.Valid()
    ensures d.cursor == 0 ==> r == d
    ensures d.cursor > 0 ==> r.cursor == d.cursor - 1 && |r.entries| == |d.entries| - 1
    ensures d.cursor > 0 ==> forall k :: 0 <= k < d.cursor - 1 ==> r.entries[k] == d.entries[k]
    ensures d.cursor > 0 ==> forall k :: d.cursor <= k < |d.entries| ==> r.entries[k - 1] == d.entries[k]
  {
    if d.cursor > 0 then
      Doc(d.entries[..d.cursor - 1] + d.entries[d.cursor..], d.cursor - 1)
    else
      d
  }

  /** `move_cursor`: add the delta, then clamp to the buffer's bounds.  The
      entries never change.  No validity is needed beforehand: the clamp
      repairs any cursor. */
  function MoveCursor(d: Doc, delta: int): (r: Doc)
    ensures r.Valid()
    ensures r.entries == d.entries
    ensures 0 <= d.cursor + delta <= |d.entries| ==> r.cursor == d.cursor + delta
    ensures d.cursor + delta < 0 ==> r.cursor == 0
    ensures d.cursor + delta > |d.entries| ==> r.cursor == |d.entries|
  {
    Doc(d.entries, Clamp(d.cursor + delta, 0, |d.entries|))
  }

  /** Typing a character and then erasing it restores buffer and cursor. */
  lemma TypeThenBackspace(d: Doc, colors: map<string, Color>, fallback: Color, c: string)
    requires d.Valid()
    ensures Backspace(TypeChar(d, colors, fallback, c)) == d
  {
    var t := TypeChar(d, colors, fallback, c);
    assert t.entries[..d.cursor] + t.entries[d.cursor + 1..] == d.entries;
  }

  /** Erasing an entry and retyping the same character in the same colour
      restores the buffer: the other half of the insert/delete inverse. */
  lemma BackspaceThenRetype(d: Doc, colors: map<string, Color>, fallback: Color)
    requires d.Valid() && d.cursor > 0
    requires ColorFor(colors, d.entries[d.cursor - 1].ch, fallback) == d.entries[d.cursor - 1].color
    ensures TypeChar(Backspace(d), colors, fallback, d.entries[d.cursor - 1].ch) == d
  {
    var b := Backspace(d);
    var r := TypeChar(b, colors, fallback, d.entries[d.cursor - 1].ch);
    assert r.entries == d.entries;
  }

  /** The buffer operations as a replayable edit log. */
  datatype Edit = Type(ch: string, color: Color) | Erase | Move(delta: int)

  function ApplyEdit(d: Doc, e: Edit): (r: Doc)
    requires d.Valid()
    ensures r.Valid()
  {
    match e
    case Type(ch, color) => Insert(d, Entry(ch, color))
    case Erase => Backspace(d)
    case Move(delta) => MoveCursor(d, delta)
  }

  function ApplyEdits(d: Doc, es: seq<Edit>): Doc
    requires d.Valid()
    decreases |es|
  {
    if es == [] then d else ApplyEdits(ApplyEdit(d, es[0]), es[1..])
  }

  /** `0 <= cursor_index <= len(text_buffer)` holds after every sequence of
      edits that starts from a valid buffer, in particular from the empty
      buffer every window starts with. */
  lemma {:induction false} EditsKeepCursorInBounds(d: Doc, es: seq<Edit>)
    requires d.Valid()
    ensures ApplyEdits(d, es).Valid()
    decreases |es|
  {
    if es != [] {
      EditsKeepCursorInBounds(ApplyEdit(d, es[0]), es[1..]);
    }
  }
}

=== FILE: grid.dfy ===
/** Grid cells of the Qt grid layouts.  The keyboard, the sticker dock and
    the crayon palette all fill their grids with the same counter loop:
    place at (row, col), step the column, and start a new row once the
    column reaches the grid width. */
module Grid {

  datatype Cell = Cell(row: int, col: int)

  /** The counters after `n` placements in a grid `w` columns wide are
      `n / w` and `n % w`. */
  lemma CountersAreDivMod(n: int, w: int, row: int, col: int)
    requires w > 0 && 0 <= col < w && 0 <= row
    requires row * w + col == n
    ensures n / w == row && n % w == col
  {
    var q, r := n / w, n % w;
    assert (q - row) * w == col - r;
    ScaledAtLeastOnce(q - row, w);
    ScaledAtLeastOnce(row - q, w);
    assert (row - q) * w == r - col;
  }

  lemma ScaledAtLeastOnce(a: int, w: int)
    requires w > 0
    ensures a >= 1 ==> a * w >= w
  {
    if a >= 1 {
      assert a * w - w == (a - 1) * w;
    }
  }

  /** One loop step: after placing at (row, col), stepping the column and
      wrapping at `w`, the counters describe placement `n + 1`. */
  lemma {:induction false} StepCounters(n: int, w: int, row: int, col: int)
    requires w > 0 && 0 <= col < w && 0 <= row && row * w + col == n
    ensures var c := col + 1;
            var row' := if c >= w then row + 1 else row;
            var col' := if c >= w then 0 else c;
            0 <= col' < w && 0 <= row' && row' * w + col' == n + 1
  {
  }
}

=== FILE: keyboard.dfy ===
/** The on-screen keyboard: Latin and number tabs fill a 10-column grid
    row by row; the Japanese tabs are columns of kana laid out right to
    left, with empty strings marking holes. */
module Keyboard {
  import opened Common
  import opened Grid
  import opened Widgets

  const LATIN_COLUMNS: int := 10

  datatype PlacedKey = PlacedKey(key: ColorKey, cell: Cell)

  /** A fresh key for `ch`, repainted when the character has a colour. */
  function KeyFor(ch: string, colors: map<string, Color>): (k: ColorKey)
    ensures k.ch == ch
    ensures ch in colors ==> k.color == colors[ch]
    ensures ch !in colors ==> k.color == "#000000"
  {
    var k := NewColorKey(ch);
    if ch in colors then SetSynesthesiaColor(k, colors[ch]) else k
  }

  /** Latin or number tab: key `i` goes to row `i / 10`, column `i % 10`. */
  method LoadLatin(chars: seq<string>, colors: map<string, Color>) returns (keys: seq<PlacedKey>)
    ensures |keys| == |chars|
    ensures forall i :: 0 <= i < |chars| ==> keys[i] == PlacedKey(KeyFor(chars[i], colors), Cell(i / 10, i % 10))
  {
    keys := [];
    var r, c := 0, 0;
    for i := 0 to |chars|
      invariant |keys| == i
      invariant 0 <= r && 0 <= c < LATIN_COLUMNS && r * LATIN_COLUMNS + c == i
      invariant forall j :: 0 <= j < i ==> keys[j] == PlacedKey(KeyFor(chars[j], colors), Cell(j / 10, j % 10))
    {
      CountersAreDivMod(i, LATIN_COLUMNS, r, c);
      keys := keys + [PlacedKey(KeyFor(chars[i], colors), Cell(r, c))];
      StepCounters(i, LATIN_COLUMNS, r, c);
      c := c + 1;
      if c >= 10 {
        c := 0;
        r := r + 1;
      }
    }
  }

  /** The keys of one kana column from row `ri` down, skipping holes. */
  function ColumnFrom(column: seq<string>, gridCol: int, colors: map<string, Color>, ri: int): seq<PlacedKey>
    requires 0 <= ri <= |column|
    decreases |column| - ri
  {
    if ri == |column| then []
    else
      (if column[ri] != "" then [PlacedKey(KeyFor(column[ri], colors), Cell(ri, gridCol))] else [])
      + ColumnFrom(column, gridCol, colors, ri + 1)
  }

  /** The keys of kana columns `ci` onwards; column `ci` is shown in grid
      column `|cols| - 1 - ci`. */
  function ColumnsFrom(cols: seq<seq<string>>, colors: map<string, Color>, ci: int): seq<PlacedKey>
    requires 0 <= ci <= |cols|
    decreases |cols| - ci
  {
    if ci == |cols| then []
    else ColumnFrom(cols[ci], |cols| - 1 - ci, colors, 0) + ColumnsFrom(cols, colors, ci + 1)
  }

  /** A Japanese tab. */
  function JapaneseKeys(cols: seq<seq<string>>, colors: map<string, Color>): seq<PlacedKey> {
    ColumnsFrom(cols, colors, 0)
  }

  /** The kana column a grid column shows. */
  function SourceColumn(cols: seq<seq<string>>, gridCol: int): int {
    |cols| - 1 - gridCol
  }

  /** Holds when a placed key shows a non-empty slot of the kana columns
      in the cell that slot belongs to. */
  predicate PlacedFromSlot(cols: seq<seq<string>>, colors: map<string, Color>, k: PlacedKey) {
    var ci := SourceColumn(cols, k.cell.col);
    0 <= ci < |cols| && 0 <= k.cell.row < |cols[ci]|
    && cols[ci][k.cell.row] != "" && k.key == KeyFor(cols[ci][k.cell.row], colors)
  }

  lemma {:induction false} ColumnFromSpec(cols: seq<seq<string>>, colors: map<string, Color>, ci: int, ri: int)
    requires 0 <= ci < |cols| && 0 <= ri <= |cols[ci]|
    ensures forall k :: k in ColumnFrom(cols[ci], |cols| - 1 - ci, colors, ri) ==>
      PlacedFromSlot(cols, colors, k) && k.cell.col == |cols| - 1 - ci && ri <= k.cell.row
    ensures forall r :: ri <= r < |cols[ci]| && cols[ci][r] != "" ==>
      PlacedKey(KeyFor(cols[ci][r], colors), Cell(r, |cols| - 1 - ci)) in ColumnFrom(cols[ci], |cols| - 1 - ci, colors, ri)
    decreases |cols[ci]| - ri
  {
    if ri < |cols[ci]| {
      ColumnFromSpec(cols, colors, ci, ri + 1);
    }
  }

  lemma {:induction false} ColumnsFromSpec(cols: seq<seq<string>>, colors: map<string, Color>, ci: int)
    requires 0 <= ci <= |cols|
    ensures forall k :: k in ColumnsFrom(cols, colors, ci) ==> PlacedFromSlot(cols, colors, k)
    ensures forall c, r :: ci <= c < |cols| && 0 <= r < |cols[c]| && cols[c][r] != "" ==>
      PlacedKey(KeyFor(cols[c][r], colors), Cell(r, |cols| - 1 - c)) in ColumnsFrom(cols, colors, ci)
    decreases |cols| - ci
  {
    if ci < |cols| {
      ColumnsFromSpec(cols, colors, ci + 1);
      ColumnFromSpec(cols, colors, ci, 0);
    }
  }

  /** The number of non-empty slots of a kana column. */
  function Filled(column: seq<string>): nat
    decreases |column|
  {
    if column == [] then 0 else (if column[0] != "" then 1 else 0) + Filled(column[1..])
  }

  /** The number of non-empty slots of all kana columns. */
  function FilledSlots(cols: seq<seq<string>>): nat
    decreases |cols|
  {
    if cols == [] then 0 else Filled(cols[0]) + FilledSlots(cols[1..])
  }

  lemma {:induction false} ColumnFromCount(column: seq<string>, gridCol: int, colors: map<string, Color>, ri: int)
    requires 0 <= ri <= |column|
    ensures |ColumnFrom(column, gridCol, colors, ri)| == Filled(column[ri..])
    decreases |column| - ri
  {
    if ri < |column| {
      ColumnFromCount(column, gridCol, colors, ri + 1);
      assert column[ri..][1..] == column[ri + 1..];
    }
  }

  lemma {:induction false} ColumnsFromCount(cols: seq<seq<string>>, colors: map<string, Color>, ci: int)
    requires 0 <= ci <= |cols|
    ensures |ColumnsFrom(cols, colors, ci)| == FilledSlots(cols[ci..])
    decreases |cols| - ci
  {
    if ci < |cols| {
      ColumnsFromCount(cols, colors, ci + 1);
      ColumnFromCount(cols[ci], |cols| - 1 - ci, colors, 0);
      assert cols[ci][0..] == cols[ci];
      assert cols[ci..][1..] == cols[ci + 1..];
    }
  }

  /** Japanese placement: every key sits at (row, |cols| - 1 - column) of
      a non-empty kana slot and shows that kana; every non-empty slot gets
      its key there; empty slots get none.  There are as many keys as
      non-empty slots, so each slot gets exactly one key. */
  lemma JapanesePlacement(cols: seq<seq<string>>, colors: map<string, Color>)
    ensures forall k :: k in JapaneseKeys(cols, colors) ==> PlacedFromSlot(cols, colors, k)
    ensures forall c, r :: 0 <= c < |cols| && 0 <= r < |cols[c]| && cols[c][r] != "" ==>
      PlacedKey(KeyFor(cols[c][r], colors), Cell(r, |cols| - 1 - c)) in JapaneseKeys(cols, colors)
    ensures |JapaneseKeys(cols, colors)| == FilledSlots(cols)
  {
    ColumnsFromSpec(cols, colors, 0);
    ColumnsFromCount(cols, colors, 0);
    assert cols[0..] == cols;
  }

  /** Repaint one key if it shows `ch` (helper of the post-dialog pass). */
  function RepaintOne(k: PlacedKey, ch: string, color: Color): PlacedKey {
    if k.key.ch == ch then k.(key := SetSynesthesiaColor(k.key, color)) else k
  }

  /** The post-dialog pass as written: every key showing `ch` is repainted
      with `color_map[ch]`, a lookup that raises KeyError when `ch` was
      never given a colour. */
  function RepaintAsWritten(keys: seq<PlacedKey>, ch: string, colors: map<string, Color>): (r: Result<seq<PlacedKey>>)
    ensures r.Err? <==> ch !in colors && exists i :: 0 <= i < |keys| && keys[i].key.ch == ch
    ensures r.Ok? ==> |r.value| == |keys|
    ensures r.Ok? ==> forall i :: 0 <= i < |keys| ==>
      r.value[i].cell == keys[i].cell && r.value[i].key.ch == keys[i].key.ch
      && r.value[i].key.color == (if keys[i].key.ch == ch then colors[ch] else keys[i].key.color)
    decreases |keys|
  {
    if keys == [] then Ok([])
    else if keys[0].key.ch == ch && ch !in colors then Err(KeyError(ch))
    else
      match RepaintAsWritten(keys[1..], ch, colors)
      case Err(e) => Err(e)
      case Ok(rest) =>
        Ok([if keys[0].key.ch == ch then RepaintOne(keys[0], ch, colors[ch]) else keys[0]] + rest)
  }

  /** The post-dialog pass without the crash: keys showing `ch` are
      repainted when `ch` has a colour; otherwise they keep the colour they
      show. */
  function Repaint(keys: seq<PlacedKey>, ch: string, colors: map<string, Color>): (r: seq<PlacedKey>)
    ensures |r| == |keys|
    ensures forall i :: 0 <= i < |keys| ==>
      r[i].cell == keys[i].cell && r[i].key.ch == keys[i].key.ch
      && r[i].key.color == (if keys[i].key.ch == ch && ch in colors then colors[ch] else keys[i].key.color)
  {
    if ch in colors then seq(|keys|, i requires 0 <= i < |keys| => RepaintOne(keys[i], ch, colors[ch]))
    else keys
  }

  /** Wherever the written pass does not crash, the corrected pass does the
      same. */
  lemma RepaintAgreesWhenDefined(keys: seq<PlacedKey>, ch: string, colors: map<string, Color>)
    requires RepaintAsWritten(keys, ch, colors).Ok?
    ensures RepaintAsWritten(keys, ch, colors).value == Repaint(keys, ch, colors)
  {
    var a := RepaintAsWritten(keys, ch, colors).value;
    var b := Repaint(keys, ch, colors);
    assert forall i :: 0 <= i < |keys| ==> a[i] == b[i];
  }

  /** Closing the colour dialog for a key whose character never got a
      colour (no crayon clicked) raises KeyError. */
  lemma RepaintCrashesOnUnassigned()
    ensures RepaintAsWritten([PlacedKey(NewColorKey("A"), Cell(0, 0))], "A", map[]) == Err(KeyError("A"))
  {
  }
}

=== FILE: layout.dfy ===
/** The paper layout: a deterministic projection of the buffer, cursor and
    mode onto draw items.  The pen starts at (20, 20); a newline or a pen
    that ran past the right margin moves it to the next 40-unit line. */
module Layout {
  import opened Common
  import opened Document
  import opened Scene

  const LEFT: real := 20.0
  const TOP: real := 20.0
  const LINE_HEIGHT: real := 40.0
  /** The pen wraps once x exceeds PAPER_W - 40. */
  const WRAP_AT: real := (PAPER_W - 40) as real
  const CURSOR_HEIGHT: real := 30.0
  const SHADOW_OFFSET: real := 2.0
  const NEWLINE: string := "\n"

  const ORIGIN: Point := Point(LEFT, TOP)

  /** Rendered glyph width, from font metrics.  It is left uninterpreted. */
  type Width = string -> real

  function NextLine(p: Point): Point {
    Point(LEFT, p.y + LINE_HEIGHT)
  }

  /** The pen after one entry: a newline starts the next line; any other
      character moves the pen right by its width and wraps only if that
      overshoots the margin. */
  function Advance(p: Point, e: Entry, width: Width): (q: Point)
    ensures e.ch == NEWLINE ==> q == Point(LEFT, p.y + LINE_HEIGHT)
    ensures e.ch != NEWLINE && p.x + width(e.ch) <= WRAP_AT ==> q == Point(p.x + width(e.ch), p.y)
    ensures e.ch != NEWLINE && p.x + width(e.ch) > WRAP_AT ==> q == Point(LEFT, p.y + LINE_HEIGHT)
  {
    if e.ch == NEWLINE then NextLine(p)
    else
      var x := p.x + width(e.ch);
      if x > WRAP_AT then NextLine(p) else Point(x, p.y)
  }

  /** The pen position just before entry `k` is laid out (for `k == |es|`,
      the final pen position). */
  function PenAt(es: seq<Entry>, k: int, width: Width): Point
    requires 0 <= k <= |es|
    decreases k
  {
    if k == 0 then ORIGIN else Advance(PenAt(es, k - 1, width), es[k - 1], width)
  }

  /** The red cursor: a 30-unit vertical line at the pen, z = 3. */
  function CursorMark(p: Point): SceneItem {
    LineItem(p, Offset(p, 0.0, CURSOR_HEIGHT), CURSOR_COLOR, CURSOR_Z)
  }

  /** The grey shadow, offset by (+2, +2), z = 1. */
  function ShadowFor(e: Entry, p: Point): SceneItem {
    TextItem(Shadow, e.ch, SHADOW_COLOR, Offset(p, SHADOW_OFFSET, SHADOW_OFFSET), SHADOW_Z)
  }

  /** The glyph in the entry's own colour, z = 2. */
  function GlyphFor(e: Entry, p: Point): SceneItem {
    TextItem(Glyph, e.ch, e.color, p, GLYPH_Z)
  }

  /** The render loop of main.py from entry `i` with pen `p`: a cursor
      before entry `i` when `i` is the cursor index in writing mode, then
      shadow and glyph unless the entry is a newline, then the rest; after
      the last entry, a cursor when the cursor sits at the end. */
  function RenderFrom(es: seq<Entry>, cursor: int, writing: bool, width: Width, i: int, p: Point): seq<SceneItem>
    requires 0 <= i <= |es|
    decreases |es| - i
  {
    if i == |es| then
      (if cursor == |es| && writing then [CursorMark(p)] else [])
    else
      var mark := if i == cursor && writing then [CursorMark(p)] else [];
      var e := es[i];
      var rest := RenderFrom(es, cursor, writing, width, i + 1, Advance(p, e, width));
      if e.ch == NEWLINE then mark + rest
      else mark + [ShadowFor(e, p), GlyphFor(e, p)] + rest
  }

  /** `MainWindow.render` of main.py, after the refresh step. */
  function Render(d: Doc, mode: Mode, width: Width): seq<SceneItem> {
    RenderFrom(d.entries, d.cursor, mode == Writing, width, 0, ORIGIN)
  }

  /** The render loop of main_v1.3.py and main_all_in_one.py: as main.py,
      but the end-of-buffer cursor is guarded by a `cursor_drawn` flag. */
  function RenderFlaggedFrom(es: seq<Entry>, cursor: int, writing: bool, width: Width, i: int, p: Point, drawn: bool): seq<SceneItem>
    requires 0 <= i <= |es|
    decreases |es| - i
  {
    if i == |es| then
      (if !drawn && cursor == |es| && writing then [CursorMark(p)] else [])
    else
      var here := i == cursor && writing;
      var mark := if here then [CursorMark(p)] else [];
      var e := es[i];
      var rest := RenderFlaggedFrom(es, cursor, writing, width, i + 1, Advance(p, e, width), drawn || here);
      if e.ch == NEWLINE then mark + rest
      else mark + [ShadowFor(e, p), GlyphFor(e, p)] + rest
  }

  /** `render_paper` of main_v1.3.py / main_all_in_one.py, after the
      refresh step. */
  function RenderFlagged(d: Doc, mode: Mode, width: Width): seq<SceneItem> {
    RenderFlaggedFrom(d.entries, d.cursor, mode == Writing, width, 0, ORIGIN, false)
  }

  lemma {:induction false} FlagIsRedundantFrom(es: seq<Entry>, cursor: int, writing: bool, width: Width, i: int, p: Point, drawn: bool)
    requires 0 <= i <= |es|
    requires drawn == (writing && 0 <= cursor < i)
    ensures RenderFlaggedFrom(es, cursor, writing, width, i, p, drawn) == RenderFrom(es, cursor, writing, width, i, p)
    decreases |es| - i
  {
    if i < |es| {
      FlagIsRedundantFrom(es, cursor, writing, width, i + 1, Advance(p, es[i], width), drawn || (i == cursor && writing));
    }
  }

  /** The `cursor_drawn` flag changes nothing: the in-loop cursor fires only
      for an index below the length and the final one only at the length,
      so the two render loops emit the same items for every input. */
  lemma RenderVersionsAgree(d: Doc, mode: Mode, width: Width)
    ensures RenderFlagged(d, mode, width) == Render(d, mode, width)
  {
    FlagIsRedundantFrom(d.entries, d.cursor, mode == Writing, width, 0, ORIGIN, false);
  }

  // ---------------------------------------------------------------------
  // Reference description of the output, written over entry indices.

  /** Shadow and glyph of every visible entry from `i` on, each at the pen
      position before that entry. */
  function TextsFrom(es: seq<Entry>, width: Width, i: int): seq<SceneItem>
    requires 0 <= i <= |es|
    decreases |es| - i
  {
    if i == |es| then []
    else if es[i].ch == NEWLINE then TextsFrom(es, width, i + 1)
    else [ShadowFor(es[i], PenAt(es, i, width)), GlyphFor(es[i], PenAt(es, i, width))] + TextsFrom(es, width, i + 1)
  }

  lemma {:induction false} TextsOfRenderFrom(es: seq<Entry>, cursor: int, writing: bool, width: Width, i: int)
    requires 0 <= i <= |es|
    ensures Keep(RenderFrom(es, cursor, writing, width, i, PenAt(es, i, width)), IsText) == TextsFrom(es, width, i)
    decreases |es| - i
  {
    var p := PenAt(es, i, width);
    if i == |es| {
    } else {
      var mark := if i == cursor && writing then [CursorMark(p)] else [];
      var rest := RenderFrom(es, cursor, writing, width, i + 1, PenAt(es, i + 1, width));
      TextsOfRenderFrom(es, cursor, writing, width, i + 1);
      KeepNone(mark, IsText);
      if es[i].ch == NEWLINE {
        KeepAppend(mark, rest, IsText);
      } else {
        var pair := [ShadowFor(es[i], p), GlyphFor(es[i], p)];
        KeepAppend(mark + pair, rest, IsText);
        KeepAppend(mark, pair, IsText);
        assert Keep(pair, IsText) == pair by {
          assert pair[1..] == [pair[1]];
          assert pair[1..][1..] == [];
        }
      }
    }
  }

  /** One step of the render loop: the optional cursor mark, the entry's
      own items, then the rest of the loop from the next pen position. */
  lemma RenderStep(es: seq<Entry>, cursor: int, writing: bool, width: Width, i: int)
    requires 0 <= i < |es|
    ensures RenderFrom(es, cursor, writing, width, i, PenAt(es, i, width))
         == (if i == cursor && writing then [CursorMark(PenAt(es, i, width))] else [])
          + (if es[i].ch == NEWLINE then [] else [ShadowFor(es[i], PenAt(es, i, width)), GlyphFor(es[i], PenAt(es, i, width))])
          + RenderFrom(es, cursor, writing, width, i + 1, PenAt(es, i + 1, width))
  {
  }

  lemma {:induction false} LinesOfRenderFrom(es: seq<Entry>, cursor: int, writing: bool, width: Width, i: int)
    requires 0 <= i <= |es|
    ensures Keep(RenderFrom(es, cursor, writing, width, i, PenAt(es, i, width)), IsLine)
         == if writing && i <= cursor <= |es| then [CursorMark(PenAt(es, cursor, width))] else []
    decreases |es| - i
  {
    var p := PenAt(es, i, width);
    if i < |es| {
      var mark := if i == cursor && writing then [CursorMark(p)] else [];
      var body := if es[i].ch == NEWLINE then [] else [ShadowFor(es[i], p), GlyphFor(es[i], p)];
      var rest := RenderFrom(es, cursor, writing, width, i + 1, PenAt(es, i + 1, width));
      RenderStep(es, cursor, writing, width, i);
      LinesOfRenderFrom(es, cursor, writing, width, i + 1);
      KeepAppend(mark + body, rest, IsLine);
      KeepAppend(mark, body, IsLine);
      KeepNone(body, IsLine);
      assert Keep(mark, IsLine) == mark by {
        if mark != [] { assert mark[1..] == []; }
      }
    } else {
      var mark := if cursor == |es| && writing then [CursorMark(p)] else [];
      assert Keep(mark, IsLine) == mark by {
        if mark != [] { assert mark[1..] == []; }
      }
    }
  }

  /** Shadows and glyphs: every visible entry `k` (not a newline), in
      buffer order, gives a grey shadow at its pen position + (2, 2) with
      z = 1 followed by a glyph in the entry's colour at its pen position
      with z = 2; newlines give nothing. */
  lemma RenderTexts(d: Doc, mode: Mode, width: Width)
    ensures Keep(Render(d, mode, width), IsText) == TextsFrom(d.entries, width, 0)
  {
    TextsOfRenderFrom(d.entries, d.cursor, mode == Writing, width, 0);
  }

  /** Cursor: in writing mode with the cursor in bounds exactly one z = 3
      line is drawn, from the pen position before entry `cursor` (the final
      pen position when the cursor is at the end) 30 units down; in setting
      mode none is drawn. */
  lemma RenderCursor(d: Doc, mode: Mode, width: Width)
    ensures d.Valid() && mode == Writing ==>
      Keep(Render(d, mode, width), IsLine) == [LineItem(PenAt(d.entries, d.cursor, width), Offset(PenAt(d.entries, d.cursor, width), 0.0, 30.0), "red", 3)]
    ensures mode == Setting ==> Keep(Render(d, mode, width), IsLine) == []
  {
    LinesOfRenderFrom(d.entries, d.cursor, mode == Writing, width, 0);
  }

  /** A render emits only shadows, glyphs and the cursor, never a sticker,
      so everything it adds is removed by the next refresh. */
  lemma {:induction false} RenderFromHasNoStickers(es: seq<Entry>, cursor: int, writing: bool, width: Width, i: int, p: Point)
    requires 0 <= i <= |es|
    ensures forall k :: 0 <= k < |RenderFrom(es, cursor, writing, width, i, p)| ==>
      RemovedOnRefresh(RenderFrom(es, cursor, writing, width, i, p)[k])
      && 1 <= RenderFrom(es, cursor, writing, width, i, p)[k].z <= 3
    decreases |es| - i
  {
    if i < |es| {
      RenderFromHasNoStickers(es, cursor, writing, width, i + 1, Advance(p, es[i], width));
    }
  }

  /** It also stacks every item it emits between Qt's default z of 0 and
      the z of 4 main.py and main_v1.3.py give a dropped sticker. */
  lemma RenderIsRemovable(d: Doc, mode: Mode, width: Width)
    ensures forall k :: 0 <= k < |Render(d, mode, width)| ==> RemovedOnRefresh(Render(d, mode, width)[k])
    ensures forall k :: 0 <= k < |Render(d, mode, width)| ==> 0 < Render(d, mode, width)[k].z < 4
    ensures Stickers(Render(d, mode, width)) == []
  {
    var r := Render(d, mode, width);
    RenderFromHasNoStickers(d.entries, d.cursor, mode == Writing, width, 0, ORIGIN);
    KeepNone(r, IsSticker);
  }

  /** The pen never stands right of the wrap margin, and with non-negative
      glyph widths never left of the left margin or above the first line. */
  lemma {:induction false} PenInBounds(es: seq<Entry>, k: int, width: Width)
    requires 0 <= k <= |es|
    requires forall s :: width(s) >= 0.0
    ensures LEFT <= PenAt(es, k, width).x <= WRAP_AT
    ensures TOP <= PenAt(es, k, width).y
    decreases k
  {
    if k > 0 {
      PenInBounds(es, k - 1, width);
    }
  }

  /** Typing "AB", a newline and "C" with no mid-line wrap places A at
      (20, 20), B at (20 + width of A, 20) and C at (20, 60). */
  lemma TwoLineExample(width: Width, color: Color, cursor: int, mode: Mode)
    requires LEFT + width("A") + width("B") <= WRAP_AT && LEFT + width("A") <= WRAP_AT
    ensures var d := Doc([Entry("A", color), Entry("B", color), Entry(NEWLINE, color), Entry("C", color)], cursor);
      Keep(Render(d, mode, width), IsText) ==
        [ TextItem(Shadow, "A", SHADOW_COLOR, Point(22.0, 22.0), 1), TextItem(Glyph, "A", color, Point(20.0, 20.0), 2)
        , TextItem(Shadow, "B", SHADOW_COLOR, Point(22.0 + width("A"), 22.0), 1), TextItem(Glyph, "B", color, Point(20.0 + width("A"), 20.0), 2)
        , TextItem(Shadow, "C", SHADOW_COLOR, Point(22.0, 62.0), 1), TextItem(Glyph, "C", color, Point(20.0, 60.0), 2) ]
  {
    var es := [Entry("A", color), Entry("B", color), Entry(NEWLINE, color), Entry("C", color)];
    RenderTexts(Doc(es, cursor), mode, width);
    assert "A" != NEWLINE && "B" != NEWLINE && "C" != NEWLINE;
    assert PenAt(es, 0, width) == Point(20.0, 20.0);
    assert PenAt(es, 1, width) == Point(20.0 + width("A"), 20.0);
    assert PenAt(es, 2, width) == Point(20.0 + width("A") + width("B"), 20.0);
    assert PenAt(es, 3, width) == Point(20.0, 60.0);
    assert TextsFrom(es, width, 4) == [];
    assert TextsFrom(es, width, 3) == [ShadowFor(es[3], Point(20.0, 60.0)), GlyphFor(es[3], Point(20.0, 60.0))];
    assert TextsFrom(es, width, 2) == TextsFrom(es, width, 3);
    assert TextsFrom(es, width, 1) == [ShadowFor(es[1], PenAt(es, 1, width)), GlyphFor(es[1], PenAt(es, 1, width))] + TextsFrom(es, width, 2);
    assert TextsFrom(es, width, 0) == [ShadowFor(es[0], PenAt(es, 0, width)), GlyphFor(es[0], PenAt(es, 0, width))] + TextsFrom(es, width, 1);
  }
}

=== FILE: paper.dfy ===
/** The paper as a whole: scene items, the background brush and the
    recorded current theme, and the three windows' render passes. */
module Paper {
  import opened Common
  import opened Document
  import opened Scene
  import opened Layout

  /** The paper scene.  `background` is the theme image the brush shows,
      if any; `theme` is `current_theme` (main.py does not record one and
      keeps it empty). */
  datatype Canvas = Canvas(items: seq<SceneItem>, background: Option<string>, theme: string)

  const BlankCanvas: Canvas := Canvas([], None, "")

  /** `change_theme`: main_v1.3.py and main_all_in_one.py record the name
      first, even when no image file exists; the brush changes only when
      the file exists. */
  function ChangeTheme(c: Canvas, v: Version, name: string, themeExists: string -> bool): (r: Canvas)
    ensures r.items == c.items
    ensures v != Main ==> r.theme == name
    ensures v == Main ==> r.theme == c.theme
    ensures themeExists(name) ==> r.background == Some(name)
    ensures !themeExists(name) ==> r.background == c.background
  {
    var recorded := if v == Main then c.theme else name;
    var brush := if themeExists(name) then Some(name) else c.background;
    Canvas(c.items, brush, recorded)
  }

  /** The refresh step shared by all windows: remove every text or line
      item that is not a placed sticker, then lay the buffer out again. */
  function Refresh(items: seq<SceneItem>, d: Doc, mode: Mode, width: Width): (r: seq<SceneItem>)
    ensures Stickers(r) == Stickers(items)
    ensures Keep(r, RemovedOnRefresh) == Render(d, mode, width)
  {
    var laid := Render(d, mode, width);
    SurvivorsAreStickers(items);
    RenderIsRemovable(d, mode, width);
    KeepAppend(Survivors(items), laid, IsSticker);
    KeepAppend(Survivors(items), laid, RemovedOnRefresh);
    KeepIdempotent(items, IsSticker);
    KeepNone(laid, IsSticker);
    KeepSound(items, IsSticker);
    KeepNone(Stickers(items), RemovedOnRefresh);
    KeepAllFrom(laid, RemovedOnRefresh);
    Survivors(items) + laid
  }

  /** A filter that every item passes keeps everything. */
  lemma {:induction false} KeepAllFrom(s: seq<SceneItem>, f: SceneItem -> bool)
    requires forall k :: 0 <= k < |s| ==> f(s[k])
    ensures Keep(s, f) == s
    decreases |s|
  {
    if s != [] {
      KeepAllFrom(s[1..], f);
    }
  }

  /** One render pass of the given window: the refresh step, laid out by
      main.py's loop or by the `cursor_drawn` loop of the other two
      windows.  main_all_in_one.py first clears the whole scene and
      re-applies a non-empty current theme. */
  function RenderPaper(c: Canvas, v: Version, d: Doc, mode: Mode, width: Width, themeExists: string -> bool): (r: Canvas)
    ensures Keep(r.items, RemovedOnRefresh) == Render(d, mode, width)
    ensures r.theme == c.theme
    ensures v != AllInOne ==> Stickers(r.items) == Stickers(c.items) && r.background == c.background
    ensures v == AllInOne ==> Stickers(r.items) == []
    ensures v == AllInOne && c.theme != "" && themeExists(c.theme) ==> r.background == Some(c.theme)
    ensures v == AllInOne && (c.theme == "" || !themeExists(c.theme)) ==> r.background == c.background
  {
    var laid := if v == Main then Render(d, mode, width) else RenderFlagged(d, mode, width);
    RenderVersionsAgree(d, mode, width);
    assert laid == Render(d, mode, width);
    if v == AllInOne then
      var cleared := c.(items := []);
      var themed := if c.theme != "" then ChangeTheme(cleared, v, c.theme, themeExists) else cleared;
      assert Survivors(themed.items) + laid == Refresh(themed.items, d, mode, width);
      themed.(items := Survivors(themed.items) + laid)
    else
      assert Survivors(c.items) + laid == Refresh(c.items, d, mode, width);
      c.(items := Survivors(c.items) + laid)
  }

  /** Re-rendering with no edit in between changes nothing: the second pass
      removes exactly what the first one added and adds it again. */
  lemma RenderTwiceIsRenderOnce(c: Canvas, v: Version, d: Doc, mode: Mode, width: Width, themeExists: string -> bool)
    ensures var once := RenderPaper(c, v, d, mode, width, themeExists);
            RenderPaper(once, v, d, mode, width, themeExists) == once
  {
    var laid := Render(d, mode, width);
    var once := RenderPaper(c, v, d, mode, width, themeExists);
    RenderIsRemovable(d, mode, width);
    if v != AllInOne {
      SurvivorsAreStickers(c.items);
      SurvivorsAreStickers(once.items);
      KeepAppend(Stickers(c.items), laid, IsSticker);
      KeepIdempotent(c.items, IsSticker);
    }
  }

  /** main_all_in_one.py as written: a placed sticker does not survive the
      next render pass, while the refresh of main_v1.3.py keeps it. */
  lemma ClearLosesSticker(d: Doc, mode: Mode, width: Width, themeExists: string -> bool)
    ensures var c := Canvas([TextItem(Sticker, "⭐", "black", Point(100.0, 100.0), 0)], None, "");
      |Stickers(RenderPaper(c, AllInOne, d, mode, width, themeExists).items)| == 0
      && |Stickers(RenderPaper(c, V13, d, mode, width, themeExists).items)| == 1
  {
    var c := Canvas([TextItem(Sticker, "⭐", "black", Point(100.0, 100.0), 0)], None, "");
    assert Stickers(c.items) == c.items;
  }
}

=== FILE: scene.dfy ===
/** The paper's graphics scene as a sequence of tagged items.  Text glyphs,
    their shadows and placed stickers are all text items (a placed sticker
    is a text item subclass in the source); the cursor is a line item. */
module Scene {
  import opened Common

  /** What a text item is for.  `Sticker` marks a placed sticker. */
  datatype TextRole = Shadow | Glyph | Sticker

  datatype SceneItem =
    | TextItem(role: TextRole, text: string, color: Color, at: Point, z: int)
    | LineItem(from: Point, to: Point, color: Color, z: int)

  /** Stacking values of the rendered layers and of a sticker dropped in
      main.py / main_v1.3.py. */
  const SHADOW_Z: int := 1
  const GLYPH_Z: int := 2
  const CURSOR_Z: int := 3
  const STICKER_Z: int := 4
  /** The z-value Qt gives an item nobody set one for. */
  const QT_DEFAULT_Z: int := 0

  /** The shadow grey, QColor(200, 200, 200). */
  const SHADOW_COLOR: Color := "#c8c8c8"
  const CURSOR_COLOR: Color := "red"
  const STICKER_COLOR: Color := "black"

  predicate IsSticker(it: SceneItem) {
    it.TextItem? && it.role == Sticker
  }

  /** The type half of the refresh test: a text item or a line item.  A
      placed sticker passes it, being a text item. */
  predicate IsTextOrLine(it: SceneItem) {
    it.TextItem? || it.LineItem?
  }

  /** The refresh test of main.py and main_v1.3.py: "a text item or a line
      item, but not a placed sticker". */
  predicate RemovedOnRefresh(it: SceneItem) {
    IsTextOrLine(it) && !IsSticker(it)
  }

  /** What a refresh would keep if it tested the item type alone. */
  predicate KeptByTypeAlone(it: SceneItem) {
    !IsTextOrLine(it)
  }

  predicate KeptOnRefresh(it: SceneItem) {
    !RemovedOnRefresh(it)
  }

  predicate IsLine(it: SceneItem) {
    it.LineItem?
  }

  predicate IsText(it: SceneItem) {
    it.TextItem?
  }

  /** The items of a scene that satisfy `f`, in scene order. */
  function Keep(s: seq<SceneItem>, f: SceneItem -> bool): seq<SceneItem>
    decreases |s|
  {
    if s == [] then []
    else if f(s[0]) then [s[0]] + Keep(s[1..], f)
    else Keep(s[1..], f)
  }

  /** The items a refresh keeps, in scene order. */
  function Survivors(s: seq<SceneItem>): seq<SceneItem> {
    Keep(s, KeptOnRefresh)
  }

  /** The placed stickers of a scene, in scene order. */
  function Stickers(s: seq<SceneItem>): seq<SceneItem> {
    Keep(s, IsSticker)
  }

  lemma {:induction false} KeepAppend(a: seq<SceneItem>, b: seq<SceneItem>, f: SceneItem -> bool)
    ensures Keep(a + b, f) == Keep(a, f) + Keep(b, f)
    decreases |a|
  {
    if a != [] {
      assert (a + b)[1..] == a[1..] + b;
      KeepAppend(a[1..], b, f);
    } else {
      assert a + b == b;
    }
  }

  lemma {:induction false} KeepIdempotent(s: seq<SceneItem>, f: SceneItem -> bool)
    ensures Keep(Keep(s, f), f) == Keep(s, f)
    decreases |s|
  {
    if s != [] {
      KeepIdempotent(s[1..], f);
      if f(s[0]) {
        assert ([s[0]] + Keep(s[1..], f))[1..] == Keep(s[1..], f);
      }
    }
  }

  /** Filtering keeps only items that pass the test, each taken from the
      original scene. */
  lemma {:induction false} KeepSound(s: seq<SceneItem>, f: SceneItem -> bool)
    ensures forall k :: 0 <= k < |Keep(s, f)| ==> f(Keep(s, f)[k]) && Keep(s, f)[k] in s
    decreases |s|
  {
    if s != [] {
      KeepSound(s[1..], f);
    }
  }

  /** A sticker is a text item, so the refresh test needs its explicit
      exclusion; with it, what a refresh keeps is exactly the stickers,
      in the same order. */
  lemma {:induction false} SurvivorsAreStickers(s: seq<SceneItem>)
    ensures Survivors(s) == Stickers(s)
    decreases |s|
  {
    if s != [] {
      SurvivorsAreStickers(s[1..]);
    }
  }

  /** The sticker exclusion is needed: a refresh that tested the item type
      alone would keep nothing, so every placed sticker would be lost. */
  lemma {:induction false} TypeTestAloneLosesStickers(s: seq<SceneItem>)
    ensures Keep(s, KeptByTypeAlone) == []
    ensures Stickers(s) != [] ==> Keep(s, KeptByTypeAlone) != Survivors(s)
  {
    KeepNone(s, KeptByTypeAlone);
    SurvivorsAreStickers(s);
  }

  /** A scene none of whose items passes the test keeps nothing. */
  lemma {:induction false} KeepNone(s: seq<SceneItem>, f: SceneItem -> bool)
    requires forall k :: 0 <= k < |s| ==> !f(s[k])
    ensures Keep(s, f) == []
    decreases |s|
  {
    if s != [] {
      KeepNone(s[1..], f);
    }
  }

  /** `PaperView.dropEvent`: a text drop places a sticker showing the
      dragged text at the drop point.  main.py and main_v1.3.py lift it to
      z = 4; main_all_in_one.py sets no z, leaving Qt's default 0. */
  function DropSticker(s: seq<SceneItem>, v: Version, text: string, at: Point): (r: seq<SceneItem>)
    ensures |r| == |s| + 1 && r[..|s|] == s
    ensures IsSticker(r[|s|]) && r[|s|].text == text && r[|s|].at == at
    ensures v != AllInOne ==> r[|s|].z == STICKER_Z
    ensures v == AllInOne ==> r[|s|].z == QT_DEFAULT_Z
    ensures Stickers(r) == Stickers(s) + [r[|s|]]
  {
    var z := if v == AllInOne then QT_DEFAULT_Z else STICKER_Z;
    var item := TextItem(Sticker, text, STICKER_COLOR, at, z);
    KeepAppend(s, [item], IsSticker);
    s + [item]
  }

  /** A double-click on a placed sticker removes that item and nothing
      else. */
  function RemoveSticker(s: seq<SceneItem>, i: int): (r: seq<SceneItem>)
    requires 0 <= i < |s| && IsSticker(s[i])
    ensures |r| == |s| - 1
    ensures r[..i] == s[..i] && r[i..] == s[i + 1..]
    ensures |Stickers(r)| == |Stickers(s)| - 1
  {
    KeepAppend(s[..i], s[i..], IsSticker);
    KeepAppend(s[..i], s[i + 1..], IsSticker);
    assert s[..i] + s[i..] == s;
    assert s[i..] == [s[i]] + s[i + 1..];
    s[..i] + s[i + 1..]
  }
}

=== FILE: session.dfy ===
/** One main window as a state machine: the mode switch, key and click
    dispatch, colour assignment through the crayon dialog, special-key
    buttons, themes and sticker drops.  Every edit is followed by the
    window's render pass. */
module Session {
  import opened Common
  import opened Document
  import opened Scene
  import opened Layout
  import opened Paper
  import opened Widgets
  import opened Keyboard

  /** Up and Down move the cursor by this many entries (main.py only). */
  const VERTICAL_STRIDE: int := 15
  /** The number of stylesheet themes main.py cycles through: config
      THEME_ORDER lists "clean", "dark", "sepia", "ice" and "pastel". */
  const THEME_COUNT: int := 5
  /** The special-key column (config SPECIAL_KEYS). */
  const SPECIAL_KEYS: seq<string> := ["Space", "Back", "Enter", "。", "、", "！", "？", "ー"]

  /** What the window cannot compute itself: glyph widths from font
      metrics and which theme image files exist. */
  datatype Env = Env(width: Width, themeExists: string -> bool)

  datatype Window = Window(
    version: Version,
    mode: Mode,
    colors: map<string, Color>,
    doc: Doc,
    canvas: Canvas,
    keys: seq<PlacedKey>,
    workspaceShown: bool,
    themeIdx: int)

  predicate Valid(w: Window) {
    w.doc.Valid() && 0 <= w.themeIdx < THEME_COUNT
  }

  /** A freshly opened window: setting mode, empty buffer, blank paper,
      workspace hidden, first stylesheet theme. */
  function Open(v: Version, colors: map<string, Color>, keys: seq<PlacedKey>): (w: Window)
    ensures Valid(w)
    ensures w.version == v && w.colors == colors && w.keys == keys
    ensures w.mode == Setting && w.doc.entries == [] && w.doc.cursor == 0 && !w.workspaceShown
    ensures w.canvas == BlankCanvas && w.themeIdx == 0
    ensures Stickers(w.canvas.items) == []
  {
    Window(v, Setting, colors, Empty, BlankCanvas, keys, false, 0)
  }

  /** Run the window's render pass. */
  function Rerender(w: Window, env: Env): Window {
    w.(canvas := RenderPaper(w.canvas, w.version, w.doc, w.mode, env.width, env.themeExists))
  }

  /** The buffer operation an input asks for. */
  datatype Action = InsertText(ch: string) | DeleteBack | MoveBy(delta: int) | Nothing

  datatype KeyCode = KeyLeft | KeyRight | KeyUp | KeyDown | KeyBackspace | KeySpace | KeyReturn | KeyEnter | KeyOther

  /** `keyPressEvent`: physical keys act only in writing mode.  main.py
      maps Left/Right to -1/+1, Up/Down to a fixed stride of -15/+15,
      Backspace to erase, Space to " " and Return/Enter to a newline; the
      other two windows handle only Left, Right and Backspace. */
  function KeyAction(v: Version, m: Mode, k: KeyCode): (a: Action)
    ensures m == Setting ==> a == Nothing
    ensures m == Writing && k == KeyLeft ==> a == MoveBy(-1)
    ensures m == Writing && k == KeyRight ==> a == MoveBy(1)
    ensures m == Writing && k == KeyBackspace ==> a == DeleteBack
    ensures v != Main && m == Writing ==> (a == Nothing <==> k != KeyLeft && k != KeyRight && k != KeyBackspace)
    ensures v == Main && m == Writing && k == KeyUp ==> a == MoveBy(-15)
    ensures v == Main && m == Writing && k == KeyDown ==> a == MoveBy(15)
    ensures v == Main && m == Writing && k == KeySpace ==> a == InsertText(" ")
    ensures v == Main && m == Writing && (k == KeyReturn || k == KeyEnter) ==> a == InsertText("\n")
    ensures k == KeyOther ==> a == Nothing
  {
    if m == Setting then Nothing
    else
      match k
      case KeyLeft => MoveBy(-1)
      case KeyRight => MoveBy(1)
      case KeyBackspace => DeleteBack
      case KeyUp => if v == Main then MoveBy(-VERTICAL_STRIDE) else Nothing
      case KeyDown => if v == Main then MoveBy(VERTICAL_STRIDE) else Nothing
      case KeySpace => if v == Main then InsertText(" ") else Nothing
      case KeyReturn => if v == Main then InsertText(NEWLINE) else Nothing
      case KeyEnter => if v == Main then InsertText(NEWLINE) else Nothing
      case KeyOther => Nothing
  }

  /** Whether carrying out `a` re-renders the paper: every action does,
      except a backspace at the start of the buffer, which returns first. */
  predicate Renders(w: Window, a: Action) {
    a != Nothing && !(a.DeleteBack? && w.doc.cursor == 0)
  }

  /** What a render pass promises about the paper of `r`, rendered from the
      paper of `w` with the buffer and mode of `r`: the non-sticker items
      are the fresh layout and the recorded theme is kept.  main.py and
      main_v1.3.py keep the stickers and the background; main_all_in_one.py
      loses every sticker and re-applies a non-empty theme whose image file
      exists, keeping the background otherwise. */
  predicate Repainted(w: Window, r: Window, env: Env) {
    && Keep(r.canvas.items, RemovedOnRefresh) == Render(r.doc, r.mode, env.width)
    && r.canvas.theme == w.canvas.theme
    && (w.version != AllInOne ==>
          Stickers(r.canvas.items) == Stickers(w.canvas.items) && r.canvas.background == w.canvas.background)
    && (w.version == AllInOne ==> Stickers(r.canvas.items) == [])
    && (w.version == AllInOne ==>
          r.canvas.background == if w.canvas.theme != "" && env.themeExists(w.canvas.theme) then Some(w.canvas.theme)
                                 else w.canvas.background)
  }

  /** Carry out a buffer action and re-render.  A backspace at the start of
      the buffer returns before rendering. */
  function Perform(w: Window, a: Action, env: Env): (r: Window)
    requires Valid(w)
    ensures Valid(r)
    ensures r.version == w.version && r.mode == w.mode && r.colors == w.colors
    ensures r.keys == w.keys && r.workspaceShown == w.workspaceShown && r.themeIdx == w.themeIdx
    ensures a == Nothing ==> r == w
    ensures a.InsertText? ==> r.doc == TypeChar(w.doc, w.colors, DefaultColor(w.version), a.ch)
    ensures a.InsertText? && a.ch !in w.colors ==>
      r.doc.entries[w.doc.cursor].color == if w.version == Main then "#000" else "#000000"
    ensures a.DeleteBack? ==> r.doc == Backspace(w.doc)
    ensures a.MoveBy? ==> r.doc == MoveCursor(w.doc, a.delta)
    ensures !Renders(w, a) ==> r == w
    ensures Renders(w, a) ==> Repainted(w, r, env)
    ensures w.version != AllInOne ==> Stickers(r.canvas.items) == Stickers(w.canvas.items)
    ensures w.version != AllInOne ==> r.canvas.background == w.canvas.background
    ensures r.canvas.theme == w.canvas.theme
  {
    match a
    case Nothing => w
    case InsertText(ch) => Rerender(w.(doc := TypeChar(w.doc, w.colors, DefaultColor(w.version), ch)), env)
    case DeleteBack => if w.doc.cursor > 0 then Rerender(w.(doc := Backspace(w.doc)), env) else w
    case MoveBy(delta) => Rerender(w.(doc := MoveCursor(w.doc, delta)), env)
  }

  function KeyPress(w: Window, k: KeyCode, env: Env): (r: Window)
    requires Valid(w)
    ensures Valid(r)
    ensures r == w.(doc := r.doc, canvas := r.canvas)
    ensures w.mode == Setting ==> r == w
    ensures w.mode == Writing && k == KeyLeft ==> r.doc == MoveCursor(w.doc, -1)
    ensures w.mode == Writing && k == KeyRight ==> r.doc == MoveCursor(w.doc, 1)
    ensures w.mode == Writing && k == KeyBackspace ==> r.doc == Backspace(w.doc)
    ensures w.version == Main && w.mode == Writing && k == KeyUp ==> r.doc == MoveCursor(w.doc, -15)
    ensures w.version == Main && w.mode == Writing && k == KeyDown ==> r.doc == MoveCursor(w.doc, 15)
    ensures w.version == Main && w.mode == Writing && k == KeySpace ==>
      r.doc == TypeChar(w.doc, w.colors, DefaultColor(w.version), " ")
    ensures w.version == Main && w.mode == Writing && (k == KeyReturn || k == KeyEnter) ==>
      r.doc == TypeChar(w.doc, w.colors, DefaultColor(w.version), NEWLINE)
    ensures w.version != Main && k != KeyLeft && k != KeyRight && k != KeyBackspace ==> r == w
    ensures Renders(w, KeyAction(w.version, w.mode, k)) ==> Repainted(w, r, env)
    ensures w.version != AllInOne ==>
      Stickers(r.canvas.items) == Stickers(w.canvas.items) && r.canvas.background == w.canvas.background
    ensures r.canvas.theme == w.canvas.theme
  {
    Perform(w, KeyAction(w.version, w.mode, k), env)
  }

  /** The buttons of the special-key column.  main.py gives Space, Back and
      Enter no button there. */
  predicate HasSpecialButton(v: Version, caption: string) {
    caption in SPECIAL_KEYS && (v == Main ==> caption != "Space" && caption != "Back" && caption != "Enter")
  }

  /** What a special-key button does: Space types a blank, Back erases,
      Enter types a newline and any other button types its own caption text. */
  function SpecialAction(v: Version, caption: string): (a: Action)
    requires HasSpecialButton(v, caption)
    ensures caption == "Space" ==> a == InsertText(" ")
    ensures caption == "Back" ==> a == DeleteBack
    ensures caption == "Enter" ==> a == InsertText("\n")
    ensures caption != "Space" && caption != "Back" && caption != "Enter" ==> a == InsertText(caption)
  {
    if caption == "Space" then InsertText(" ")
    else if caption == "Back" then DeleteBack
    else if caption == "Enter" then InsertText(NEWLINE)
    else InsertText(caption)
  }

  /** A special-key button press.  It is not gated by the mode. */
  function PressSpecial(w: Window, caption: string, env: Env): (r: Window)
    requires Valid(w) && HasSpecialButton(w.version, caption)
    ensures Valid(r)
    ensures r == w.(doc := r.doc, canvas := r.canvas)
    ensures r.doc == Perform(w.(mode := Writing), SpecialAction(w.version, caption), env).doc
    ensures Renders(w, SpecialAction(w.version, caption)) ==> Repainted(w, r, env)
    ensures !Renders(w, SpecialAction(w.version, caption)) ==> r == w
    ensures w.version != AllInOne ==>
      Stickers(r.canvas.items) == Stickers(w.canvas.items) && r.canvas.background == w.canvas.background
    ensures r.canvas.theme == w.canvas.theme
  {
    Perform(w, SpecialAction(w.version, caption), env)
  }

  /** Each crayon click stores the clicked colour for the character (and
      saves the profile); the last click wins. */
  function ApplyPicks(colors: map<string, Color>, ch: string, picks: seq<Color>): (r: map<string, Color>)
    ensures picks == [] ==> r == colors
    ensures picks != [] ==> r == colors[ch := picks[|picks| - 1]]
    decreases |picks|
  {
    if picks == [] then colors
    else ApplyPicks(colors[ch := picks[0]], ch, picks[1..])
  }

  /** The colour dialog for `ch` with the given crayon clicks, then the
      repaint of the keys showing `ch`. */
  function ColorDialog(w: Window, ch: string, picks: seq<Color>): (r: Window)
    requires Valid(w)
    ensures Valid(r)
    ensures r == w.(colors := r.colors, keys := r.keys)
    ensures picks == [] ==> r.colors == w.colors
    ensures picks != [] ==> r.colors == w.colors[ch := picks[|picks| - 1]]
    ensures |r.keys| == |w.keys|
    ensures r.keys == Repaint(w.keys, ch, r.colors)
    ensures forall i :: 0 <= i < |w.keys| && w.keys[i].key.ch == ch && ch in r.colors ==>
      r.keys[i].key.color == r.colors[ch]
    ensures forall i :: 0 <= i < |w.keys| && w.keys[i].key.ch != ch ==> r.keys[i] == w.keys[i]
  {
    var colors := ApplyPicks(w.colors, ch, picks);
    var keys := Repaint(w.keys, ch, colors);
    assert forall i :: 0 <= i < |w.keys| && w.keys[i].key.ch != ch ==> keys[i] == w.keys[i];
    w.(colors := colors, keys := keys)
  }

  /** A click on a keyboard key: the colour dialog in setting mode,
      typing otherwise. */
  function HandleKey(w: Window, ch: string, picks: seq<Color>, env: Env): (r: Window)
    requires Valid(w)
    ensures Valid(r)
    ensures w.mode == Setting ==> r == w.(colors := r.colors, keys := r.keys)
    ensures w.mode == Writing ==> r.mode == w.mode && r.keys == w.keys && r.workspaceShown == w.workspaceShown
    ensures w.mode == Setting && picks == [] ==> r.colors == w.colors
    ensures w.mode == Setting && picks != [] ==> r.colors == w.colors[ch := picks[|picks| - 1]]
    ensures w.mode == Setting ==> r.keys == Repaint(w.keys, ch, r.colors)
    ensures w.mode == Writing ==> r == w.(doc := r.doc, canvas := r.canvas)
    ensures w.mode == Writing ==> r.colors == w.colors && r.doc == TypeChar(w.doc, w.colors, DefaultColor(w.version), ch)
    ensures w.mode == Writing ==> Repainted(w, r, env)
  {
    if w.mode == Setting then ColorDialog(w, ch, picks)
    else Perform(w, InsertText(ch), env)
  }

  /** `set_mode`: writing shows the workspace and renders; setting hides it
      and leaves the paper as it is. */
  function SetMode(w: Window, m: Mode, env: Env): (r: Window)
    requires Valid(w)
    ensures Valid(r)
    ensures r.mode == m && r.workspaceShown == (m == Writing)
    ensures r.doc == w.doc && r.colors == w.colors && r.keys == w.keys && r.version == w.version
    ensures r.themeIdx == w.themeIdx && r.canvas.theme == w.canvas.theme
    ensures w.version != AllInOne ==> r.canvas.background == w.canvas.background
    ensures m == Setting ==> r.canvas == w.canvas
    ensures m == Writing ==> Keep(r.canvas.items, RemovedOnRefresh) == Render(w.doc, Writing, env.width)
    ensures m == Writing ==> Repainted(w, r, env)
    ensures w.version != AllInOne ==> Stickers(r.canvas.items) == Stickers(w.canvas.items)
  {
    var switched := w.(mode := m, workspaceShown := m == Writing);
    if m == Writing then Rerender(switched, env) else switched
  }

  /** main.py's theme button: step to the next stylesheet theme, wrapping
      around, then re-apply the current mode. */
  function CycleTheme(w: Window, env: Env): (r: Window)
    requires Valid(w) && w.version == Main
    ensures Valid(r)
    ensures r.themeIdx == if w.themeIdx == THEME_COUNT - 1 then 0 else w.themeIdx + 1
    ensures r == w.(themeIdx := r.themeIdx, workspaceShown := r.workspaceShown, canvas := r.canvas)
    ensures r.workspaceShown == (w.mode == Writing)
    ensures w.mode == Writing ==> Keep(r.canvas.items, RemovedOnRefresh) == Render(w.doc, Writing, env.width)
    ensures w.mode == Setting ==> r.canvas == w.canvas
    ensures Stickers(r.canvas.items) == Stickers(w.canvas.items)
    ensures r.canvas.background == w.canvas.background && r.canvas.theme == w.canvas.theme
  {
    SetMode(w.(themeIdx := (w.themeIdx + 1) % THEME_COUNT), w.mode, env)
  }

  /** A click on a theme thumbnail. */
  function PickTheme(w: Window, name: string, env: Env): (r: Window)
    requires Valid(w)
    ensures Valid(r)
    ensures r == w.(canvas := r.canvas)
    ensures r.canvas.items == w.canvas.items
    ensures w.version != Main ==> r.canvas.theme == name
    ensures w.version == Main ==> r.canvas.theme == w.canvas.theme
    ensures env.themeExists(name) ==> r.canvas.background == Some(name)
    ensures !env.themeExists(name) ==> r.canvas.background == w.canvas.background
  {
    w.(canvas := ChangeTheme(w.canvas, w.version, name, env.themeExists))
  }

  /** A sticker dragged from the dock and dropped on the paper: the placed
      sticker shows the dragged sticker's text. */
  function DropFromDock(w: Window, s: DockSticker, at: Point): (r: Window)
    ensures r == w.(canvas := r.canvas)
    ensures |r.canvas.items| == |w.canvas.items| + 1
    ensures r.canvas == w.canvas.(items := w.canvas.items + [r.canvas.items[|w.canvas.items|]])
    ensures |Stickers(r.canvas.items)| == |Stickers(w.canvas.items)| + 1
    ensures var placed := r.canvas.items[|r.canvas.items| - 1];
            IsSticker(placed) && placed.text == s.glyph && placed.at == at
            && (placed.z > CURSOR_Z <==> w.version != AllInOne)
            && (placed.z < SHADOW_Z <==> w.version == AllInOne)
  {
    w.(canvas := w.canvas.(items := DropSticker(w.canvas.items, w.version, DragPayload(s), at)))
  }

  // ---------------------------------------------------------------------
  // Whole-session properties.

  /** Every input except sticker drops and removals. */
  datatype Event =
    | Press(key: KeyCode)
    | Click(ch: string, picks: seq<Color>)
    | Special(caption: string)
    | SwitchMode(m: Mode)
    | Theme(name: string)
    | Cycle

  function Step(w: Window, e: Event, env: Env): (r: Window)
    requires Valid(w)
    ensures Valid(r) && r.version == w.version
    ensures w.version != AllInOne ==> Stickers(r.canvas.items) == Stickers(w.canvas.items)
  {
    match e
    case Press(k) => KeyPress(w, k, env)
    case Click(ch, picks) => HandleKey(w, ch, picks, env)
    case Special(caption) => if HasSpecialButton(w.version, caption) then PressSpecial(w, caption, env) else w
    case SwitchMode(m) => SetMode(w, m, env)
    case Theme(name) => PickTheme(w, name, env)
    case Cycle => if w.version == Main then CycleTheme(w, env) else w
  }

  function Run(w: Window, es: seq<Event>, env: Env): Window
    requires Valid(w)
    decreases |es|
  {
    if es == [] then w else Run(Step(w, es[0], env), es[1..], env)
  }

  /** The window's event loop: it handles the inputs one after another.
      The result is the run of those inputs, the cursor stays within the
      buffer, and in main.py and main_v1.3.py the placed stickers survive. */
  method EventLoop(w: Window, es: seq<Event>, env: Env) returns (r: Window)
    requires Valid(w)
    ensures r == Run(w, es, env)
    ensures Valid(r) && r.version == w.version
    ensures w.version != AllInOne ==> Stickers(r.canvas.items) == Stickers(w.canvas.items)
  {
    r := w;
    for i := 0 to |es|
      invariant Valid(r) && r.version == w.version
      invariant w.version != AllInOne ==> Stickers(r.canvas.items) == Stickers(w.canvas.items)
      invariant Run(w, es, env) == Run(r, es[i..], env)
    {
      assert es[i..][1..] == es[i + 1..];
      r := Step(r, es[i], env);
    }
    assert es[|es|..] == [];
  }

  /** After any sequence of inputs the cursor stays within the buffer. */
  lemma {:induction false} RunKeepsValid(w: Window, es: seq<Event>, env: Env)
    requires Valid(w)
    ensures Valid(Run(w, es, env)) && Run(w, es, env).version == w.version
    decreases |es|
  {
    if es != [] {
      RunKeepsValid(Step(w, es[0], env), es[1..], env);
    }
  }

  /** In main.py and main_v1.3.py the placed stickers survive any amount of
      typing, erasing, cursor movement, mode switching and theme changes,
      in number and in content. */
  lemma {:induction false} RunKeepsStickers(w: Window, es: seq<Event>, env: Env)
    requires Valid(w) && w.version != AllInOne
    ensures Stickers(Run(w, es, env).canvas.items) == Stickers(w.canvas.items)
    decreases |es|
  {
    if es != [] {
      RunKeepsStickers(Step(w, es[0], env), es[1..], env);
    }
  }

  /** Assigning a colour to a character in setting mode and then clicking
      that key in writing mode types the character in the assigned
      colour. */
  lemma AssignThenType(w: Window, ch: string, picks: seq<Color>, env: Env)
    requires Valid(w) && w.mode == Setting && picks != []
    ensures var typed := HandleKey(SetMode(HandleKey(w, ch, picks, env), Writing, env), ch, [], env);
            typed.doc.entries[w.doc.cursor] == Entry(ch, picks[|picks| - 1])
  {
  }

  /** Special-key buttons type or erase the same way in either mode. */
  lemma SpecialKeysIgnoreMode(w: Window, caption: string, env: Env)
    requires Valid(w) && HasSpecialButton(w.version, caption)
    ensures PressSpecial(w.(mode := Setting), caption, env).doc == PressSpecial(w.(mode := Writing), caption, env).doc
  {
  }
}

=== FILE: widgets.dfy ===
/** The small widgets: a keyboard key that shows its character in the
    character's assigned colour, the crayon palette, and the dock of
    draggable stickers. */
module Widgets {
  import opened Common
  import opened Grid

  /** The colour a fresh key shows before any colour is assigned. */
  const KEY_START_COLOR: Color := "#000000"
  /** Tooltip of a crayon whose colour has no traditional name. */
  const UNKNOWN_NAME: string := "Unknown"
  /** Columns of the crayon palette (it wraps once the column passes 5). */
  const PALETTE_COLUMNS: int := 6
  /** Columns of the sticker dock (it wraps once the column passes 1). */
  const DOCK_COLUMNS: int := 2

  /** A keyboard key: its character and the colour its label is drawn in. */
  datatype ColorKey = ColorKey(ch: string, color: Color)

  function NewColorKey(ch: string): (k: ColorKey)
    ensures k.ch == ch && k.color == "#000000"
  {
    ColorKey(ch, KEY_START_COLOR)
  }

  /** `set_synesthesia_color`: repaint the key; its character is kept. */
  function SetSynesthesiaColor(k: ColorKey, h: Color): (r: ColorKey)
    ensures r.ch == k.ch && r.color == h
  {
    k.(color := h)
  }

  /** A crayon: the colour it picks, its tooltip and its grid cell. */
  datatype Crayon = Crayon(hex: Color, tooltip: string, cell: Cell)

  /** `CrayonPalette`: one crayon per colour, in order, six to a row, each
      tooltip the colour's traditional name or "Unknown".  Clicking crayon
      `i` hands `colors[i]` to the palette's callback. */
  method BuildPalette(colors: seq<Color>, names: map<Color, string>) returns (crayons: seq<Crayon>)
    ensures |crayons| == |colors|
    ensures forall i :: 0 <= i < |colors| ==> crayons[i].hex == colors[i]
    ensures forall i :: 0 <= i < |colors| ==> crayons[i].cell == Cell(i / 6, i % 6)
    ensures forall i :: 0 <= i < |colors| ==>
      crayons[i].tooltip == (if colors[i] in names then names[colors[i]] else "Unknown")
  {
    crayons := [];
    var row, col := 0, 0;
    for i := 0 to |colors|
      invariant |crayons| == i
      invariant 0 <= row && 0 <= col < PALETTE_COLUMNS && row * PALETTE_COLUMNS + col == i
      invariant forall j :: 0 <= j < i ==> crayons[j].hex == colors[j]
      invariant forall j :: 0 <= j < i ==> crayons[j].cell == Cell(j / 6, j % 6)
      invariant forall j :: 0 <= j < i ==>
        crayons[j].tooltip == (if colors[j] in names then names[colors[j]] else "Unknown")
    {
      var hex := colors[i];
      var name := if hex in names then names[hex] else UNKNOWN_NAME;
      CountersAreDivMod(i, PALETTE_COLUMNS, row, col);
      crayons := crayons + [Crayon(hex, name, Cell(row, col))];
      StepCounters(i, PALETTE_COLUMNS, row, col);
      col := col + 1;
      if col > 5 {
        col := 0;
        row := row + 1;
      }
    }
  }

  /** A draggable sticker in the dock: its label and its grid cell. */
  datatype DockSticker = DockSticker(glyph: string, cell: Cell)

  /** The text a drag from the dock carries: the label itself. */
  function DragPayload(s: DockSticker): string {
    s.glyph
  }

  /** The sticker dock: one draggable sticker per label, two to a row. */
  method BuildDock(labels: seq<string>) returns (dock: seq<DockSticker>)
    ensures |dock| == |labels|
    ensures forall i :: 0 <= i < |labels| ==> dock[i] == DockSticker(labels[i], Cell(i / 2, i % 2))
  {
    dock := [];
    var r, c := 0, 0;
    for i := 0 to |labels|
      invariant |dock| == i
      invariant 0 <= r && 0 <= c < DOCK_COLUMNS && r * DOCK_COLUMNS + c == i
      invariant forall j :: 0 <= j < i ==> dock[j] == DockSticker(labels[j], Cell(j / 2, j % 2))
    {
      CountersAreDivMod(i, DOCK_COLUMNS, r, c);
      dock := dock + [DockSticker(labels[i], Cell(r, c))];
      StepCounters(i, DOCK_COLUMNS, r, c);
      c := c + 1;
      if c > 1 {
        c := 0;
        r := r + 1;
      }
    }
  }
}
